=== FILE: README.md ===
# Dynamic particles: a Dafny model of the point-cloud animation core

The demo loads a 3D model, turns its vertices into a point cloud and animates
it every frame:

- each point orbits a small circle around its rest position, with random
  jitter on all three axes ("circular Brownian motion");
- the point size breathes with a sine wave;
- a throttled counter occasionally recolours the points objects when the
  sine changes sign.

Three motion parameters drive the displacement: `circleRadius`, `circleSpeed`
and `maxDisplacement`. The control panel edits them, and the reset button
tweens them back to zero.

This project models the sequential logic of that core over real numbers.
Trigonometry, pi and `Math.random` are inputs:

- `Motion.Trig` carries the cosine and sine functions and pi;
- random draws come as sequences of reals, consumed in the order the source
  consumes them;
- the frame's sine value is a parameter of the throttle.

Modules, one per concern of `main.js`:

- `Geometry` (`geometry.dfy`): `Vec3`, extraction of rest positions from a flat
  coordinate array, and its inverse `Flatten`.
- `Motion` (`motion.dfy`): the motion parameters, the reset target, the
  control-panel ranges, the per-point displacement, the per-buffer loop, and
  the frame loop over all points objects.
- `Appearance` (`appearance.dfy`): the size pulse, the random colour and one
  frame of the point-size animation.
- `ColourThrottle` (`throttle.dfy`): the `(previousSign, colorChangeCounter)`
  state machine, stated per visit, per frame and over runs of frames.
- `RealArith` (`realarith.dfy`): `Abs` and a few product/quotient facts the
  solver needs spelled out.

Behaviour of `main.js` worth knowing:

- **Throttle unit.** `colorChangeCounter` is incremented inside the scene
  traversal, once per visited `Points` object (main.js:158), so with more than
  ten points objects one frame can recolour twice.
- **Stored sine.** `previousSign` is assigned the frame's raw sine value
  (main.js:167); only `Math.sign` of it is ever compared.
- **Ragged arrays.** The extraction loop (main.js:109-110) steps by three
  while `i < vertices.length`, so an array whose length is not a multiple of
  three yields `ceil(n / 3)` vectors. The missing coordinates of the last one
  take three.js's default `0`; three.js's `Vector3` is not part of this model,
  so that default is the constant `Geometry.Absent`.
- **Shared buffers.** The loader makes two points objects from every `Points`
  child, both drawing that child's geometry (main.js:106, 119). Each frame
  displaces the buffer once per object, so the first object's write is
  overwritten by the second's.
- **Identity condition.** Points stay at rest when `circleRadius` and
  `maxDisplacement` are zero; `circleSpeed` does not matter.
- **Parameter signs.** Parameters are not required to be non-negative, except
  where a bound needs `maxDisplacement >= 0`.

## Model

| member | source | states |
|---|---|---|
| Geometry.RestPositions | main.js:108-111 | a flat array of n numbers yields `(n+2)/3` vectors, in order, and vector j is made of coordinates 3j, 3j+1, 3j+2, with reads past the end defaulting |
| Geometry.ExtractRestPositions | main.js:108-111 | the step-of-three loop produces exactly those vectors, one per started group of three |
| Geometry.RestPositionsOfTriples | main.js:109-110 | for an array of length 3k there are exactly k vectors and vector j is `(v[3j], v[3j+1], v[3j+2])`; the empty array gives the empty sequence |
| Geometry.RestPositionsOfRagged | main.js:109-110 | a trailing partial group still yields one more vector, whose missing coordinates are the default |
| Geometry.RestPositionsOfFlatten | main.js:108-111 | extracting from a flattened vector sequence gives that sequence back |
| Geometry.FlattenOfRestPositions | main.js:108-111 | for lengths that are multiples of three, flattening the extracted vectors gives the original array back: extraction loses nothing |
| Motion.AnimatePositions | main.js:172-192 | the loop over `positions.count` overwrites every index of the buffer with the displaced rest position, and the result does not depend on the buffer's previous contents |
| Motion.AnimateFrame | main.js:170-194 | each points object in turn overwrites the buffer it draws, so an object that no later object overwrites leaves its displacement in its buffer (`Drawing`: that object's rest positions displaced with its own draws), and a buffer no object draws is unchanged; with `Motion.LastWriter` every buffer falls under exactly one of these |
| Motion.DrawnUntouched | main.js:171-193 | after the first k objects of a frame have drawn, a buffer none of them draws still holds its old contents |
| Motion.DrawnLastWrite | main.js:171-193 | after the first k objects of a frame have drawn, a buffer one of them draws holds the displacement the last of them drawing it computed |
| Motion.LastWriter | main.js:171-172 | among the first k objects, the one whose write a buffer keeps draws it and no later one of them draws it; -1 exactly when none of them draws it |
| Motion.LoaderObjects | main.js:103-121 | the loader registers two objects per `Points` child c, both drawing buffer c with the same rest positions |
| Motion.LoaderLastWriter | main.js:113-121 | in the loader's registry the second object of each pair is the last to draw its child's buffer, so that object's displacement is what the frame leaves |
| Motion.DisplaceIsLocal | main.js:175-189 | output point i depends only on rest position i, the index, the point count, the time, the parameters and draws 3i..3i+2 |
| Motion.IdentityAtRest | main.js:176-187 | with `circleRadius = 0` and `maxDisplacement = 0` every point equals its rest position, for any speed, time and draws |
| Motion.ResetRestoresRest | main.js:39-42 | the reset tween's all-zero target leaves every point at rest, whatever `circleSpeed` holds, and so do the start-up parameters |
| Motion.JitterBound | main.js:176-178 | a draw in [0,1) with `maxDisplacement >= 0` jitters by at most `maxDisplacement / 2` |
| Motion.OffsetBounds | main.js:176-187 | the vertical offset from rest is at most `maxDisplacement/2`, and each horizontal offset is at most `abs(circleRadius) + maxDisplacement/2`, given cosine and sine in [-1,1] |
| Motion.GuiRangeOffsets | main.js:220-222 | within the control-panel ranges no point moves more than 22.5 horizontally or 2.5 vertically from rest |
| Motion.AngularSpacing | main.js:180 | consecutive points are exactly `2*pi/N` apart on the ring, and point 0's angle is `elapsedTime * circleSpeed` |
| Motion.AngleClosedForm | main.js:180 | point i sits i steps of `2*pi/N` after point 0, so the N points are spread evenly round the ring |
| Appearance.PulseSize | main.js:151 | for s in [-1,1] and lo <= hi the size lies in [lo, hi], equal to lo at s = -1 and to hi at s = 1 |
| Appearance.PointSize | main.js:143-151 | with the demo's constants the size lies in [0, 0.5] for any sine value |
| Appearance.PulseSizeMonotone | main.js:151 | a larger sine value never gives a smaller point |
| Appearance.PulseSizeInverse | main.js:151 | when lo < hi the size determines the sine value: the pulse is one-to-one |
| Appearance.PulseSizeOnto | main.js:151 | when lo < hi every size in [lo, hi] is the pulse of a sine value in [-1,1], so with the inverse the pulse maps [-1,1] onto [lo, hi] one-to-one |
| Appearance.RandomColor | main.js:160 | red and blue are the first and fourth draws and green is the product of the middle two; green lies in [0,1) and below each of its factors |
| Appearance.AnimatePointSize | main.js:150-168 | one frame: the remembered sine becomes this frame's; the size is the pulse of this frame's sine (it maps back to that sine) and lies in [MinSize, MaxSize] for a sine in [-1,1]; visit k recolours iff the sign flipped and the counter bumped from the visits since the last recolouring reaches the interval |
| ColourThrottle.FrameVisits | main.js:154-165 | a frame's visits produce one trace entry each, and the counter ends equal to the number of visits since the last recolouring |
| ColourThrottle.FrameVisitsThrottled | main.js:158-163 | within a frame, the first recolouring needs the counter to reach the interval, and any two recolourings are at least the interval apart |
| ColourThrottle.VisitDecision | main.js:158-163 | visit k recolours iff the sign flipped and the counter, bumped from the visits since the last recolouring, has reached the interval |
| ColourThrottle.NoFlipNoChange | main.js:159 | when the sign is unchanged no visit recolours and the counter grows by the number of visits |
| ColourThrottle.Frame | main.js:150-168 | after every frame `previousSign` holds that frame's sine, whatever the number of visits; the counter counts visits since the last recolouring; an unchanged sign recolours nothing |
| ColourThrottle.FrameDecision | main.js:152-163 | in frame terms: visit k recolours iff `sign(current) != sign(previousSign)` and the bumped counter has reached the interval |
| ColourThrottle.Run | main.js:146-168 | over a run of frames the trace has one entry per visit, the final `previousSign` is the last frame's sine, and the counter is the number of visits since the last recolouring |
| ColourThrottle.RunThrottled | main.js:146-168 | across frame boundaries too, any two recolourings are at least `colorChangeInterval` visits apart |
| ColourThrottle.RunFromStart | main.js:146-148 | from start-up (previous sine 1, counter 0) nothing recolours before the tenth visit, and recolourings are at least ten visits apart |
| ColourThrottle.FlipEveryFrame | main.js:158-163 | with the sign flipping every frame and one visit per frame, frame k recolours iff the starting counter, clamped to at most interval-1, plus k+1 is a multiple of the interval; any reachable counter, including one at or past the interval |
| ColourThrottle.Clamped | main.js:158-159 | a counter at or past the interval behaves like interval-1: the next bump reaches the interval in both cases |
| ColourThrottle.FlipEveryFrameFromStart | main.js:146-163 | from start-up with the sign flipping every frame, the colour changes on frames 10, 20, 30, … and on no other |

## Left out

- Scene, camera, renderer, tone mapping, lighting, grid helper and the resize handler (main.js:60-97, 225-229), and the `positions.needsUpdate = true` flag that asks the renderer to upload a displaced buffer (main.js:192). These are rendering I/O.
- GLTF loading, the scene traversal that finds `Points` children, and the pink recolouring of other meshes (main.js:99-141, apart from the extraction loop and the pair registration at main.js:113-121, which `Motion.LoaderObjects` and `Motion.LoaderLastWriter` model). These run in an asynchronous loader callback over a library outside this model. The number of `Points` objects a frame visits is a parameter of the throttle.
- The gsap tweens of the reset button (main.js:38-58): their timing, `power2.inOut` easing, and the `onComplete` position and rotation tweens. gsap is an external animation library. Only the all-zero targets are kept, as `Motion.ResetTarget`.
- The render loop, `clock`, `requestAnimationFrame`, `Stats` and the dat.GUI widgets (main.js:196-223). These are frame scheduling and UI. The GUI ranges survive only as `Motion.InGuiRange`.
- IEEE floating point. The model works over reals with injected `Math.sin`, `Math.cos`, `Math.PI` and `Math.random`, and makes no claim about rounding. `Math.sign` of `-0` and `NaN` and the `-0 + 0` sum are not modelled.
- Motion.AnimateFrame: `Math.random` is one stream in `main.js`; the model gives each object its own sequence of draws, which is the same stream cut at object boundaries. The frame also requires each object's rest positions to match its buffer's point count, which the loader's extraction gives for arrays whose length is a multiple of three.
- Drawing the random colours of recolouring visits from the random stream. `Appearance.RandomColor` gives the colour of one recolouring from its four draws. The frame reports which visits recolour but does not thread the draws through them.
- Motion.OffsetBounds: the bounds assume `maxDisplacement >= 0`, the control panel's lower limit. For a negative value the jitter is bounded by `abs(maxDisplacement) / 2` instead, and that case is not stated.

=== FILE: appearance.dfy ===
/**
 Point appearance: the breathing point size and the random colour a points
 object is given when the colour throttle fires.

 The sine of `elapsedTime * speed` is an input: the frame computes it once
 and both the size and the colour throttle read it.
 */
module Appearance {
  import opened RealArith
  import opened ColourThrottle

  /** The smallest point size of the pulse. */
  const MinSize: real := 0.0
  /** The largest point size of the pulse. */
  const MaxSize: real := 0.5
  /** Angular rate of the pulse. */
  const Speed: real := 4.0

  /** The sine argument of a frame at elapsed time `t`. */
  function Phase(t: real): real {
    t * Speed
  }

  /** `lo + (hi - lo) * w` lies between `lo` and `hi` for a weight `w` in
      [0, 1]. */
  lemma AffineBetween(lo: real, hi: real, w: real, size: real)
    requires size == lo + (hi - lo) * w
    ensures lo <= hi && 0.0 <= w <= 1.0 ==> lo <= size <= hi
  {
    if lo <= hi && 0.0 <= w <= 1.0 {
      MulNonNeg(hi - lo, w);
      MulNonNeg(hi - lo, 1.0 - w);
      Distribute(hi - lo, 1.0, w);
    }
  }

  /** The size for sine value `s`: the affine map of [-1, 1] onto
      [lo, hi]. */
  function PulseSize(lo: real, hi: real, s: real): (size: real)
    ensures lo <= hi && -1.0 <= s <= 1.0 ==> lo <= size <= hi
    ensures s == -1.0 ==> size == lo
    ensures s == 1.0 ==> size == hi
  {
    var w := 0.5 * (1.0 + s);
    var size := lo + (hi - lo) * w;
    AffineBetween(lo, hi, w, size);
    size
  }

  /** The point size of a frame whose sine value is `s`: always within
      [MinSize, MaxSize] when `s` is a sine value. */
  function PointSize(s: real): (size: real)
    ensures -1.0 <= s <= 1.0 ==> MinSize <= size <= MaxSize
    ensures s == -1.0 ==> size == MinSize
    ensures s == 1.0 ==> size == MaxSize
  {
    PulseSize(MinSize, MaxSize, s)
  }

  /** A larger sine value never gives a smaller point. */
  lemma PulseSizeMonotone(lo: real, hi: real, s1: real, s2: real)
    requires lo <= hi && s1 <= s2
    ensures PulseSize(lo, hi, s1) <= PulseSize(lo, hi, s2)
  {
    var w1 := 0.5 * (1.0 + s1);
    var w2 := 0.5 * (1.0 + s2);
    MulNonNeg(hi - lo, w2 - w1);
    Distribute(hi - lo, w2, w1);
  }

  /** When the range is not degenerate the size determines the sine value:
      the pulse is one-to-one. */
  lemma PulseSizeInverse(lo: real, hi: real, s: real)
    requires lo < hi
    ensures 2.0 * (PulseSize(lo, hi, s) - lo) / (hi - lo) - 1.0 == s
  {
    var d := hi - lo;
    var size := PulseSize(lo, hi, s);
    assert size - lo == d * (0.5 * (1.0 + s));
    assert 2.0 * (size - lo) == d * (1.0 + s);
    DivideBack(2.0 * (size - lo), d, 1.0 + s);
  }

  /** Every size in [lo, hi] is reached, by the sine value the inverse
      gives: together with `PulseSizeInverse` the pulse is a bijection from
      [-1, 1] onto [lo, hi]. */
  lemma PulseSizeOnto(lo: real, hi: real, y: real)
    requires lo < hi && lo <= y <= hi
    ensures -1.0 <= 2.0 * (y - lo) / (hi - lo) - 1.0 <= 1.0
    ensures PulseSize(lo, hi, 2.0 * (y - lo) / (hi - lo) - 1.0) == y
  {
    var d := hi - lo;
    var q := (y - lo) / d;
    assert y - lo == d * q;
    assert 0.0 <= q <= 1.0;
    DivideBack(2.0 * (y - lo), d, 2.0 * q);
  }

  /** A colour with red, green and blue channels. */
  datatype Color = Color(r: real, g: real, b: real)

  /** The product of two draws in [0, 1) lies in [0, 1) and is no larger
      than either draw. */
  lemma UnitProduct(a: real, b: real, g: real)
    requires g == a * b
    ensures 0.0 <= a < 1.0 && 0.0 <= b < 1.0 ==> 0.0 <= g <= a && g <= b && g < 1.0
  {
    if 0.0 <= a < 1.0 && 0.0 <= b < 1.0 {
      MulNonNeg(a, b);
      MulNonNeg(a, 1.0 - b);
      Distribute(a, 1.0, b);
      MulNonNeg(b, 1.0 - a);
      Distribute(b, 1.0, a);
    }
  }

  /** The colour a fired throttle assigns, from four random draws: red is
      the first draw, green the product of the next two, blue the fourth. */
  function RandomColor(d0: real, d1: real, d2: real, d3: real): (c: Color)
    ensures c.r == d0 && c.g == d1 * d2 && c.b == d3
    ensures 0.0 <= d1 < 1.0 && 0.0 <= d2 < 1.0 ==> 0.0 <= c.g <= d1 && c.g <= d2 && c.g < 1.0
  {
    var g := d1 * d2;
    UnitProduct(d1, d2, g);
    Color(d0, g, d3)
  }

  /** What one frame of the point-size animation produces: the throttle's
      new state, the size every visited points object is given, and which
      visits recoloured their object. */
  datatype PointSizeFrame = PointSizeFrame(state: ThrottleState, size: real, recoloured: seq<bool>)

  /** One frame of the point-size animation at elapsed time `t`, visiting
      `visits` points objects. Size and colour throttle read the same sine
      value, which becomes the remembered one for the next frame. The size is
      the pulse of this frame's sine, and visit `k` recolours exactly when
      the sign flipped and the counter, bumped from the visits since the
      last recolouring, has reached the interval. */
  function AnimatePointSize(st: ThrottleState, t: real, sin: real -> real, visits: nat): (r: PointSizeFrame)
    ensures r.state.previousSign == sin(Phase(t))
    ensures |r.recoloured| == visits
    ensures -1.0 <= sin(Phase(t)) <= 1.0 ==> MinSize <= r.size <= MaxSize
    ensures 2.0 * (r.size - MinSize) / (MaxSize - MinSize) - 1.0 == sin(Phase(t))
    ensures r.state.colorChangeCounter == SinceLast(r.recoloured, st.colorChangeCounter)
    ensures forall k :: 0 <= k < visits ==>
              (r.recoloured[k] <==>
                 && Sign(sin(Phase(t))) != Sign(st.previousSign)
                 && SinceLast(r.recoloured[..k], st.colorChangeCounter) + 1 >= ColorChangeInterval)
    ensures Sign(sin(Phase(t))) == Sign(st.previousSign) ==>
              forall k :: 0 <= k < visits ==> !r.recoloured[k]
  {
    var currentSign := sin(Phase(t));
    var size := PointSize(currentSign);
    PulseSizeInverse(MinSize, MaxSize, currentSign);
    var step := Frame(st, currentSign, visits);
    FrameDecisions(st, currentSign, visits);
    PointSizeFrame(step.0, size, step.1)
  }
}

=== FILE: geometry.dfy ===
/**
 Rest positions of a point cloud.

 A loaded mesh hands over its vertex coordinates as one flat array
 `x0, y0, z0, x1, y1, z1, ...`. The demo snapshots that array once, as an
 ordered sequence of 3-vectors (one per group of three numbers), and every
 later frame displaces points relative to this snapshot.
 */
module Geometry {

  /** A point (or offset) in 3-space. Coordinates are modelled as reals. */
  datatype Vec3 = Vec3(x: real, y: real, z: real)

  /** Reading past the end of a JavaScript array yields `undefined`, and the
      three.js vector constructor replaces an undefined coordinate by its
      default 0. Only a flat array whose length is not a multiple of three
      ever reads past its end. */
  const Absent: real := 0.0

  /** Coordinate `k` of the flat array as the extraction loop reads it. */
  function Coord(v: seq<real>, k: nat): real {
    if k < |v| then v[k] else Absent
  }

  /** The vector the extraction loop builds for group `j`. */
  function Group(v: seq<real>, j: nat): Vec3 {
    Vec3(Coord(v, 3 * j), Coord(v, 3 * j + 1), Coord(v, 3 * j + 2))
  }

  /** The rest positions of a flat coordinate array: one vector per started
      group of three, in order. */
  function RestPositions(v: seq<real>): (r: seq<Vec3>)
    ensures |r| == (|v| + 2) / 3
    ensures forall j :: 0 <= j < |r| ==> r[j] == Group(v, j)
    decreases |v|
  {
    if |v| == 0 then []
    else if |v| <= 3 then [Group(v, 0)]
    else
      var tail := RestPositions(v[3..]);
      assert forall j :: 0 <= j < |tail| ==> Group(v[3..], j) == Group(v, j + 1);
      [Group(v, 0)] + tail
  }

  /** The extraction loop itself: `i` walks the flat array in steps of three
      and each step appends one vector. */
  method ExtractRestPositions(vertices: seq<real>) returns (originalPositions: seq<Vec3>)
    ensures |originalPositions| == (|vertices| + 2) / 3
    ensures forall j :: 0 <= j < |originalPositions| ==>
              originalPositions[j] == Group(vertices, j)
    ensures originalPositions == RestPositions(vertices)
  {
    originalPositions := [];
    var i := 0;
    while i < |vertices|
      invariant i % 3 == 0
      invariant i <= |vertices| + 2
      invariant |originalPositions| == i / 3
      invariant forall j :: 0 <= j < |originalPositions| ==>
                  originalPositions[j] == Group(vertices, j)
      decreases |vertices| - i
    {
      originalPositions := originalPositions + [Vec3(Coord(vertices, i), Coord(vertices, i + 1), Coord(vertices, i + 2))];
      i := i + 3;
    }
  }

  /** The inverse direction: lay a sequence of vectors out as a flat
      coordinate array again. */
  function Flatten(ps: seq<Vec3>): (v: seq<real>)
    ensures |v| == 3 * |ps|
  {
    if |ps| == 0 then [] else [ps[0].x, ps[0].y, ps[0].z] + Flatten(ps[1..])
  }

  /** For a well-formed array of `3k` coordinates, extraction yields exactly
      `k` vectors and vector `j` is made of coordinates `3j`, `3j+1`, `3j+2`;
      no coordinate is padded. */
  lemma RestPositionsOfTriples(v: seq<real>)
    requires |v| % 3 == 0
    ensures |RestPositions(v)| == |v| / 3
    ensures forall j :: 0 <= j < |v| / 3 ==>
              RestPositions(v)[j] == Vec3(v[3 * j], v[3 * j + 1], v[3 * j + 2])
  {
  }

  /** A trailing incomplete group still yields a vector, whose missing
      coordinates are the default. */
  lemma RestPositionsOfRagged(v: seq<real>)
    requires |v| % 3 != 0
    ensures |RestPositions(v)| == |v| / 3 + 1
    ensures RestPositions(v)[|v| / 3].x == v[|v| - |v| % 3]
    ensures RestPositions(v)[|v| / 3].z == Absent
    ensures |v| % 3 == 1 ==> RestPositions(v)[|v| / 3].y == Absent
  {
  }

  /** Extracting the rest positions of a flattened sequence gives the
      sequence back. */
  lemma {:induction false} RestPositionsOfFlatten(ps: seq<Vec3>)
    ensures RestPositions(Flatten(ps)) == ps
  {
    var v := Flatten(ps);
    var r := RestPositions(v);
    forall j | 0 <= j < |ps|
      ensures r[j] == ps[j]
    {
      FlattenAt(ps, j);
    }
  }

  /** Coordinates of vector `j` sit at positions `3j .. 3j+2` of the flat
      array. */
  lemma {:induction false} FlattenAt(ps: seq<Vec3>, j: nat)
    requires j < |ps|
    ensures Flatten(ps)[3 * j] == ps[j].x
    ensures Flatten(ps)[3 * j + 1] == ps[j].y
    ensures Flatten(ps)[3 * j + 2] == ps[j].z
  {
    if j > 0 {
      FlattenAt(ps[1..], j - 1);
    }
  }

  /** Flattening the rest positions of a well-formed array gives the array
      back: for such arrays extraction loses nothing. */
  lemma {:induction false} FlattenOfRestPositions(v: seq<real>)
    requires |v| % 3 == 0
    ensures Flatten(RestPositions(v)) == v
    decreases |v|
  {
    if |v| > 0 {
      var g := Group(v, 0);
      var tail := if |v| == 3 then [] else RestPositions(v[3..]);
      assert RestPositions(v) == [g] + tail;
      assert ([g] + tail)[1..] == tail;
      if |v| > 3 {
        FlattenOfRestPositions(v[3..]);
      }
      assert v == [g.x, g.y, g.z] + v[3..];
    }
  }
}

=== FILE: motion.dfy ===
/**
 Circular Brownian motion: the per-frame displacement of every point of a
 point cloud from its rest position.

 Each point orbits a circle of radius `circleRadius` at an angular offset
 proportional to its index, turning at `circleSpeed` with the elapsed time,
 and is jittered on all three axes by up to `maxDisplacement / 2`. Each frame
 recomputes every position from the rest position alone.

 Trigonometry, the constant pi and the random draws are inputs to the
 model: `Trig` carries the cosine and sine functions and pi, and the draws
 come as one flat sequence, three per point, consumed in the order the
 frame consumes them (x jitter, y jitter, z jitter).
 */
module Motion {
  import opened Geometry
  import opened RealArith

  /** The shared parameter record the control panel and the reset tween
      write and every frame reads. */
  datatype MotionParams = MotionParams(circleRadius: real, circleSpeed: real, maxDisplacement: real)

  /** Parameters at start-up: no orbit, no rotation, no jitter. */
  const InitialParams: MotionParams := MotionParams(0.0, 0.0, 0.0)

  /** The values the reset animation tweens every parameter to. */
  const ResetTarget: MotionParams := MotionParams(0.0, 0.0, 0.0)

  /** The ranges the control panel lets an operator choose from. */
  predicate InGuiRange(p: MotionParams) {
    && 0.0 <= p.circleRadius <= 20.0
    && 0.0 <= p.circleSpeed <= 10.0
    && 0.0 <= p.maxDisplacement <= 5.0
  }

  /** Injected trigonometry. */
  datatype Trig = Trig(cos: real -> real, sin: real -> real, pi: real)

  /** Cosine and sine stay within [-1, 1]. */
  ghost predicate TrigBounded(trig: Trig) {
    forall a :: -1.0 <= trig.cos(a) <= 1.0 && -1.0 <= trig.sin(a) <= 1.0
  }

  /** Every random draw lies in [0, 1). */
  predicate UnitDraws(rand: seq<real>) {
    forall k :: 0 <= k < |rand| ==> 0.0 <= rand[k] < 1.0
  }

  /** Jitter on one axis from one random draw. */
  function Jitter(draw: real, maxDisplacement: real): real {
    (draw - 0.5) * maxDisplacement
  }

  /** `lo * m <= c * m <= hi * m` for a non-negative factor `m`. */
  lemma ScaleBetween(c: real, lo: real, hi: real, m: real)
    requires lo <= c <= hi && 0.0 <= m
    ensures lo * m <= c * m <= hi * m
  {
  }

  /** A draw in [0, 1) jitters by at most half the maximum displacement. */
  lemma JitterBound(draw: real, maxDisplacement: real)
    requires 0.0 <= draw < 1.0 && 0.0 <= maxDisplacement
    ensures Abs(Jitter(draw, maxDisplacement)) <= maxDisplacement / 2.0
  {
    ScaleBetween(draw - 0.5, -0.5, 0.5, maxDisplacement);
  }

  /** The orbit angle of point `i` of `n` at elapsed time `t`. */
  function Angle(i: nat, n: nat, t: real, speed: real, pi: real): real
    requires i < n
  {
    (i as real / n as real) * pi * 2.0 + t * speed
  }

  /** The new position of point `i` of `n`, computed from its rest position
      and its three draws. */
  function DisplacePoint(rest: Vec3, i: nat, n: nat, t: real, p: MotionParams, trig: Trig,
                         rx: real, ry: real, rz: real): Vec3
    requires i < n
  {
    var dx := Jitter(rx, p.maxDisplacement);
    var dy := Jitter(ry, p.maxDisplacement);
    var dz := Jitter(rz, p.maxDisplacement);
    var angle := Angle(i, n, t, p.circleSpeed, trig.pi);
    var x := trig.cos(angle) * p.circleRadius + dx;
    var z := trig.sin(angle) * p.circleRadius + dz;
    Vec3(rest.x + x, rest.y + dy, rest.z + z)
  }

  /** The positions one frame computes for a whole point set. */
  function Displace(rest: seq<Vec3>, t: real, p: MotionParams, trig: Trig, rand: seq<real>): (out: seq<Vec3>)
    requires |rand| == 3 * |rest|
    ensures |out| == |rest|
  {
    seq(|rest|, i requires 0 <= i < |rest| =>
      DisplacePoint(rest[i], i, |rest|, t, p, trig, rand[3 * i], rand[3 * i + 1], rand[3 * i + 2]))
  }

  /** One frame for one point set: every index of the live buffer is
      overwritten with its displaced rest position. The number of points is
      the buffer's element count, which must match the rest positions. */
  method AnimatePositions(buffer: seq<Vec3>, originalPositions: seq<Vec3>, t: real, p: MotionParams,
                          trig: Trig, rand: seq<real>) returns (positions: seq<Vec3>)
    requires |originalPositions| == |buffer|
    requires |rand| == 3 * |buffer|
    ensures |positions| == |buffer|
    ensures forall i :: 0 <= i < |positions| ==>
              positions[i] == DisplacePoint(originalPositions[i], i, |buffer|, t, p, trig,
                                            rand[3 * i], rand[3 * i + 1], rand[3 * i + 2])
    ensures positions == Displace(originalPositions, t, p, trig, rand)
  {
    positions := buffer;
    var totalPoints := |buffer|;
    var i := 0;
    while i < totalPoints
      invariant 0 <= i <= totalPoints
      invariant |positions| == totalPoints
      invariant forall j :: 0 <= j < i ==>
                  positions[j] == DisplacePoint(originalPositions[j], j, totalPoints, t, p, trig,
                                                rand[3 * j], rand[3 * j + 1], rand[3 * j + 2])
    {
      var dx := (rand[3 * i] - 0.5) * p.maxDisplacement;
      var dy := (rand[3 * i + 1] - 0.5) * p.maxDisplacement;
      var dz := (rand[3 * i + 2] - 0.5) * p.maxDisplacement;
      var angle := (i as real / totalPoints as real) * trig.pi * 2.0 + t * p.circleSpeed;
      var x := trig.cos(angle) * p.circleRadius + dx;
      var z := trig.sin(angle) * p.circleRadius + dz;
      var originalPos := originalPositions[i];
      positions := positions[i := Vec3(originalPos.x + x, originalPos.y + dy, originalPos.z + z)];
      assert angle == Angle(i, totalPoints, t, p.circleSpeed, trig.pi);
      assert dx == Jitter(rand[3 * i], p.maxDisplacement);
      assert positions[i] == DisplacePoint(originalPositions[i], i, totalPoints, t, p, trig,
                                           rand[3 * i], rand[3 * i + 1], rand[3 * i + 2]);
      i := i + 1;
    }
  }

  /** A registered points object: the index of the position buffer it draws
      (the geometry of the mesh child it was made from) and the rest
      positions snapshotted from that child. */
  datatype PointsObject = PointsObject(buffer: nat, originalPositions: seq<Vec3>)

  /** The index of the last of the first `k` objects that draws buffer
      `b`, or -1 when none of them does. */
  function LastWriter(objects: seq<PointsObject>, k: nat, b: nat): (w: int)
    requires k <= |objects|
    ensures -1 <= w < k
    ensures w >= 0 ==> objects[w].buffer == b
    ensures forall j :: w < j < k ==> objects[j].buffer != b
    decreases k
  {
    if k == 0 then -1
    else if objects[k - 1].buffer == b then k - 1
    else LastWriter(objects, k - 1, b)
  }

  /** The registry the loader builds: every mesh child `c` that is a point
      cloud yields two objects, both drawing that child's buffer `c` and both
      holding the same rest positions. */
  function LoaderObjects(rests: seq<seq<Vec3>>): (objects: seq<PointsObject>)
    ensures |objects| == 2 * |rests|
    ensures forall c :: 0 <= c < |rests| ==>
              objects[2 * c] == PointsObject(c, rests[c]) && objects[2 * c + 1] == PointsObject(c, rests[c])
    decreases |rests|
  {
    if |rests| == 0 then []
    else
      var n := |rests| - 1;
      LoaderObjects(rests[..n]) + [PointsObject(n, rests[n]), PointsObject(n, rests[n])]
  }

  /** In the loader's registry the second object of each pair is the last
      to draw its child's buffer. */
  lemma {:induction false} LoaderLastWriter(rests: seq<seq<Vec3>>, c: nat)
    requires c < |rests|
    ensures LastWriter(LoaderObjects(rests), 2 * |rests|, c) == 2 * c + 1
  {
    var objects := LoaderObjects(rests);
    var w := LastWriter(objects, |objects|, c);
    assert objects[2 * c + 1] == PointsObject(c, rests[c]);
    forall j | 2 * c + 1 < j < |objects|
      ensures objects[j].buffer != c
    {
      var d := j / 2;
      assert j == 2 * d || j == 2 * d + 1;
      assert objects[2 * d] == PointsObject(d, rests[d]);
    }
  }

  /** Every object draws an existing buffer, with as many rest positions as
      that buffer has points and three draws per point. */
  predicate RegistryFits(buffers: seq<seq<Vec3>>, objects: seq<PointsObject>, rands: seq<seq<real>>) {
    && |rands| == |objects|
    && (forall k :: 0 <= k < |objects| ==> objects[k].buffer < |buffers|)
    && (forall k :: 0 <= k < |objects| ==>
          |objects[k].originalPositions| == |buffers[objects[k].buffer]|)
    && (forall k :: 0 <= k < |objects| ==> |rands[k]| == 3 * |buffers[objects[k].buffer]|)
  }

  /** What object `w` writes into the buffer it draws: its rest positions
      displaced with its own draws. */
  function Drawing(buffers: seq<seq<Vec3>>, objects: seq<PointsObject>, t: real, p: MotionParams,
                   trig: Trig, rands: seq<seq<real>>, w: nat): seq<Vec3>
    requires RegistryFits(buffers, objects, rands)
    requires w < |objects|
  {
    Displace(objects[w].originalPositions, t, p, trig, rands[w])
  }

  /** The buffers once the first `k` objects of the frame have drawn. */
  function Drawn(buffers: seq<seq<Vec3>>, objects: seq<PointsObject>, t: real, p: MotionParams,
                 trig: Trig, rands: seq<seq<real>>, k: nat): (out: seq<seq<Vec3>>)
    requires RegistryFits(buffers, objects, rands)
    requires k <= |objects|
    ensures |out| == |buffers|
    ensures forall b :: 0 <= b < |out| ==> |out[b]| == |buffers[b]|
    decreases k
  {
    if k == 0 then buffers
    else
      var o := objects[k - 1];
      Drawn(buffers, objects, t, p, trig, rands, k - 1)[o.buffer := Drawing(buffers, objects, t, p, trig, rands, k - 1)]
  }

  /** Object `k - 1` changes only the buffer it draws. */
  lemma DrawnStep(buffers: seq<seq<Vec3>>, objects: seq<PointsObject>, t: real, p: MotionParams,
                  trig: Trig, rands: seq<seq<real>>, k: nat, b: nat)
    requires RegistryFits(buffers, objects, rands)
    requires 0 < k <= |objects| && b < |buffers|
    ensures objects[k - 1].buffer == b ==>
              Drawn(buffers, objects, t, p, trig, rands, k)[b] == Drawing(buffers, objects, t, p, trig, rands, k - 1)
    ensures objects[k - 1].buffer != b ==>
              Drawn(buffers, objects, t, p, trig, rands, k)[b] == Drawn(buffers, objects, t, p, trig, rands, k - 1)[b]
  {
  }

  /** A buffer none of the first `k` objects draws keeps its contents. */
  lemma {:induction false} DrawnUntouched(buffers: seq<seq<Vec3>>, objects: seq<PointsObject>, t: real,
                                          p: MotionParams, trig: Trig, rands: seq<seq<real>>, k: nat, b: nat)
    requires RegistryFits(buffers, objects, rands)
    requires k <= |objects| && b < |buffers|
    requires LastWriter(objects, k, b) < 0
    ensures Drawn(buffers, objects, t, p, trig, rands, k)[b] == buffers[b]
    decreases k
  {
    if k > 0 {
      DrawnStep(buffers, objects, t, p, trig, rands, k, b);
      DrawnUntouched(buffers, objects, t, p, trig, rands, k - 1, b);
    }
  }

  /** A buffer one of the first `k` objects draws holds the displacement of
      the last of them drawing it. */
  lemma {:induction false} DrawnLastWrite(buffers: seq<seq<Vec3>>, objects: seq<PointsObject>, t: real,
                                          p: MotionParams, trig: Trig, rands: seq<seq<real>>, k: nat, b: nat)
    requires RegistryFits(buffers, objects, rands)
    requires k <= |objects| && b < |buffers|
    requires LastWriter(objects, k, b) >= 0
    ensures Drawn(buffers, objects, t, p, trig, rands, k)[b] ==
            Drawing(buffers, objects, t, p, trig, rands, LastWriter(objects, k, b))
    decreases k
  {
    DrawnStep(buffers, objects, t, p, trig, rands, k, b);
    if objects[k - 1].buffer != b {
      DrawnLastWrite(buffers, objects, t, p, trig, rands, k - 1, b);
    }
  }

  /** One frame over every registered points object, in registration order.
      Each object overwrites the buffer it draws with its own displacement,
      from its own rest positions and its own draws; objects that draw the
      same buffer overwrite each other, so an object that no later object
      overwrites leaves its displacement in its buffer, and a buffer no
      object draws is left as it was. */
  method AnimateFrame(buffers: seq<seq<Vec3>>, objects: seq<PointsObject>, t: real, p: MotionParams,
                      trig: Trig, rands: seq<seq<real>>) returns (out: seq<seq<Vec3>>)
    requires RegistryFits(buffers, objects, rands)
    ensures |out| == |buffers|
    ensures forall b :: 0 <= b < |out| ==> |out[b]| == |buffers[b]|
    ensures forall b :: 0 <= b < |buffers| && (forall j :: 0 <= j < |objects| ==> objects[j].buffer != b) ==>
              out[b] == buffers[b]
    ensures forall w :: 0 <= w < |objects| && (forall j :: w < j < |objects| ==> objects[j].buffer != objects[w].buffer) ==>
              out[objects[w].buffer] == Drawing(buffers, objects, t, p, trig, rands, w)
  {
    out := buffers;
    var k := 0;
    while k < |objects|
      invariant 0 <= k <= |objects|
      invariant out == Drawn(buffers, objects, t, p, trig, rands, k)
    {
      var o := objects[k];
      var written := AnimatePositions(out[o.buffer], o.originalPositions, t, p, trig, rands[k]);
      out := out[o.buffer := written];
      k := k + 1;
    }
    forall b | 0 <= b < |buffers| && (forall j :: 0 <= j < |objects| ==> objects[j].buffer != b)
      ensures out[b] == buffers[b]
    {
      DrawnUntouched(buffers, objects, t, p, trig, rands, k, b);
    }
    forall w | 0 <= w < |objects| && (forall j :: w < j < |objects| ==> objects[j].buffer != objects[w].buffer)
      ensures out[objects[w].buffer] == Drawing(buffers, objects, t, p, trig, rands, w)
    {
      var b := objects[w].buffer;
      assert LastWriter(objects, k, b) == w;
      DrawnLastWrite(buffers, objects, t, p, trig, rands, k, b);
    }
  }

  /** Point `i` of the output depends on nothing but rest position `i`, the
      index, the point count, the time, the parameters and draws
      `3i .. 3i+2`. */
  lemma DisplaceIsLocal(rest1: seq<Vec3>, rest2: seq<Vec3>, rand1: seq<real>, rand2: seq<real>,
                        i: nat, t: real, p: MotionParams, trig: Trig)
    requires |rest1| == |rest2| && |rand1| == 3 * |rest1| && |rand2| == 3 * |rest2|
    requires i < |rest1|
    requires rest1[i] == rest2[i]
    requires rand1[3 * i] == rand2[3 * i] && rand1[3 * i + 1] == rand2[3 * i + 1]
    requires rand1[3 * i + 2] == rand2[3 * i + 2]
    ensures Displace(rest1, t, p, trig, rand1)[i] == Displace(rest2, t, p, trig, rand2)[i]
  {
  }

  /** With no orbit and no jitter every point stays at its rest position,
      whatever the speed, the time and the draws. */
  lemma IdentityAtRest(rest: seq<Vec3>, t: real, p: MotionParams, trig: Trig, rand: seq<real>)
    requires |rand| == 3 * |rest|
    requires p.circleRadius == 0.0 && p.maxDisplacement == 0.0
    ensures Displace(rest, t, p, trig, rand) == rest
  {
  }

  /** The reset target, and the start-up parameters, leave every point at
      rest. */
  lemma ResetRestoresRest(rest: seq<Vec3>, t: real, speed: real, trig: Trig, rand: seq<real>)
    requires |rand| == 3 * |rest|
    ensures Displace(rest, t, ResetTarget, trig, rand) == rest
    ensures Displace(rest, t, InitialParams, trig, rand) == rest
    ensures Displace(rest, t, ResetTarget.(circleSpeed := speed), trig, rand) == rest
  {
  }

  /** A cosine or sine value scales `r` to within `[-|r|, |r|]`. */
  lemma ScaledByUnit(c: real, r: real)
    requires -1.0 <= c <= 1.0
    ensures -Abs(r) <= c * r <= Abs(r)
  {
    if r >= 0.0 {
      assert (c + 1.0) * r >= 0.0;
      assert (1.0 - c) * r >= 0.0;
    } else {
      assert (c + 1.0) * r <= 0.0;
      assert (1.0 - c) * r <= 0.0;
    }
  }

  /** The horizontal offset `c * r + j` of one axis stays within
      `|r| + m / 2`. */
  lemma HorizontalBound(offset: real, c: real, r: real, j: real, m: real)
    requires -1.0 <= c <= 1.0 && Abs(j) <= m / 2.0
    requires offset == c * r + j
    ensures Abs(offset) <= Abs(r) + m / 2.0
  {
    ScaledByUnit(c, r);
  }

  /** The bounds of `OffsetBounds` for one point. */
  lemma DisplacePointBounds(rest: Vec3, i: nat, n: nat, t: real, p: MotionParams, trig: Trig,
                            rx: real, ry: real, rz: real)
    requires i < n
    requires -1.0 <= trig.cos(Angle(i, n, t, p.circleSpeed, trig.pi)) <= 1.0
    requires -1.0 <= trig.sin(Angle(i, n, t, p.circleSpeed, trig.pi)) <= 1.0
    requires 0.0 <= rx < 1.0 && 0.0 <= ry < 1.0 && 0.0 <= rz < 1.0
    requires p.maxDisplacement >= 0.0
    ensures Abs(DisplacePoint(rest, i, n, t, p, trig, rx, ry, rz).y - rest.y) <= p.maxDisplacement / 2.0
    ensures Abs(DisplacePoint(rest, i, n, t, p, trig, rx, ry, rz).x - rest.x) <= Abs(p.circleRadius) + p.maxDisplacement / 2.0
    ensures Abs(DisplacePoint(rest, i, n, t, p, trig, rx, ry, rz).z - rest.z) <= Abs(p.circleRadius) + p.maxDisplacement / 2.0
  {
    var angle := Angle(i, n, t, p.circleSpeed, trig.pi);
    var m := p.maxDisplacement;
    var q := DisplacePoint(rest, i, n, t, p, trig, rx, ry, rz);
    JitterBound(ry, m);
    JitterBound(rx, m);
    JitterBound(rz, m);
    HorizontalBound(q.x - rest.x, trig.cos(angle), p.circleRadius, Jitter(rx, m), m);
    HorizontalBound(q.z - rest.z, trig.sin(angle), p.circleRadius, Jitter(rz, m), m);
  }

  /** How far a frame moves each point from rest: at most
      `maxDisplacement / 2` vertically and at most
      `|circleRadius| + maxDisplacement / 2` on each horizontal axis. */
  lemma OffsetBounds(rest: seq<Vec3>, t: real, p: MotionParams, trig: Trig, rand: seq<real>, i: nat)
    requires |rand| == 3 * |rest|
    requires i < |rest|
    requires TrigBounded(trig) && UnitDraws(rand)
    requires p.maxDisplacement >= 0.0
    ensures Abs(Displace(rest, t, p, trig, rand)[i].y - rest[i].y) <= p.maxDisplacement / 2.0
    ensures Abs(Displace(rest, t, p, trig, rand)[i].x - rest[i].x) <= Abs(p.circleRadius) + p.maxDisplacement / 2.0
    ensures Abs(Displace(rest, t, p, trig, rand)[i].z - rest[i].z) <= Abs(p.circleRadius) + p.maxDisplacement / 2.0
  {
    var angle := Angle(i, |rest|, t, p.circleSpeed, trig.pi);
    assert -1.0 <= trig.cos(angle) <= 1.0 && -1.0 <= trig.sin(angle) <= 1.0;
    assert 0.0 <= rand[3 * i] < 1.0 && 0.0 <= rand[3 * i + 1] < 1.0 && 0.0 <= rand[3 * i + 2] < 1.0;
    DisplacePointBounds(rest[i], i, |rest|, t, p, trig, rand[3 * i], rand[3 * i + 1], rand[3 * i + 2]);
  }

  /** Within the control panel's ranges no point strays more than 22.5
      units from rest on a horizontal axis, or 2.5 units vertically. */
  lemma GuiRangeOffsets(rest: seq<Vec3>, t: real, p: MotionParams, trig: Trig, rand: seq<real>, i: nat)
    requires |rand| == 3 * |rest|
    requires i < |rest|
    requires TrigBounded(trig) && UnitDraws(rand) && InGuiRange(p)
    ensures Abs(Displace(rest, t, p, trig, rand)[i].x - rest[i].x) <= 22.5
    ensures Abs(Displace(rest, t, p, trig, rand)[i].y - rest[i].y) <= 2.5
    ensures Abs(Displace(rest, t, p, trig, rand)[i].z - rest[i].z) <= 22.5
  {
    OffsetBounds(rest, t, p, trig, rand, i);
  }

  /** Consecutive points sit exactly `2 pi / n` apart on the ring, and the
      first point's angle is the elapsed rotation `t * speed`. */
  lemma AngularSpacing(i: nat, n: nat, t: real, speed: real, pi: real)
    requires i + 1 < n
    ensures Angle(i + 1, n, t, speed, pi) - Angle(i, n, t, speed, pi) == 2.0 * pi / n as real
    ensures Angle(0, n, t, speed, pi) == t * speed
  {
  }

  /** The points are spread evenly over the whole ring: point `i` sits
      `i` steps of `2 pi / n` after point 0. */
  lemma AngleClosedForm(i: nat, n: nat, t: real, speed: real, pi: real)
    requires i < n
    ensures Angle(i, n, t, speed, pi) == t * speed + i as real * (2.0 * pi / n as real)
  {
  }
}

=== FILE: realarith.dfy ===
/**
 Small facts about real products and quotients, stated as lemmas so that a
 proof can invoke them where the solver would not find them amid a larger
 context, and the absolute value the bounds are stated with.
 */
module RealArith {

  function Abs(a: real): real {
    if a < 0.0 then -a else a
  }

  lemma MulNonNeg(a: real, b: real)
    requires 0.0 <= a && 0.0 <= b
    ensures 0.0 <= a * b
  {
  }

  lemma Distribute(a: real, b: real, c: real)
    ensures a * (b - c) == a * b - a * c
  {
  }

  lemma DivideBack(a: real, d: real, q: real)
    requires d != 0.0 && a == d * q
    ensures a / d == q
  {
  }
}

=== FILE: throttle.dfy ===
/**
 The colour-change throttle of the point-size animation.

 Every frame reads one sine value. Every points object the frame visits
 bumps a shared counter; a visit recolours its object when the sign of this
 frame's sine differs from the sign of the previous frame's sine and the
 counter has reached the interval, and then the counter restarts from zero.
 At the end of the frame the sine value is remembered for the next one.

 The visits of successive frames form one sequence of booleans, the
 "trace", true where a visit recoloured. The throttle's promise is stated
 on traces: two recolourings are at least `ColorChangeInterval` visits
 apart, and the counter is always the number of visits since the last one.
 */
module ColourThrottle {

  /** Visits that must pass between two recolourings. */
  const ColorChangeInterval: nat := 10

  /** The sign of a number: 1, -1, or 0 for zero. */
  function Sign(x: real): int {
    if x > 0.0 then 1 else if x < 0.0 then -1 else 0
  }

  /** The state the throttle keeps between frames. `previousSign` holds the
      previous frame's sine value itself; only its sign is ever compared. */
  datatype ThrottleState = ThrottleState(previousSign: real, colorChangeCounter: nat)

  /** The state before the first frame. */
  const InitialState: ThrottleState := ThrottleState(1.0, 0)

  /** One frame's input: its sine value and how many points objects it
      visits. */
  datatype FrameInput = FrameInput(sine: real, visits: nat)

  /** The number of visits since the last recolouring of `trace`, or since
      the start plus `c0` when the trace holds none. */
  function SinceLast(trace: seq<bool>, c0: nat): nat
    decreases |trace|
  {
    if |trace| == 0 then c0
    else if trace[|trace| - 1] then 0
    else SinceLast(trace[..|trace| - 1], c0) + 1
  }

  /** The throttle's promise for a trace that starts with the counter at
      `c0`: the first recolouring comes only once the counter reaches the
      interval, and any two recolourings are at least the interval apart. */
  predicate Throttled(trace: seq<bool>, c0: nat) {
    && (forall b :: 0 <= b < |trace| && trace[b] ==> c0 + b + 1 >= ColorChangeInterval)
    && (forall a, b :: 0 <= a < b < |trace| && trace[a] && trace[b] ==> b - a >= ColorChangeInterval)
  }

  /** One visit: bump the counter, then recolour if the sign flipped and the
      counter has reached the interval. Yields the new counter and whether
      the visit recoloured. */
  function Visit(flipped: bool, counter: nat): (nat, bool) {
    var bumped := counter + 1;
    if flipped && bumped >= ColorChangeInterval then (0, true) else (bumped, false)
  }

  /** Counting continues across the boundary of two traces. */
  lemma {:induction false} SinceLastConcat(t1: seq<bool>, t2: seq<bool>, c0: nat)
    ensures SinceLast(t1 + t2, c0) == SinceLast(t2, SinceLast(t1, c0))
    decreases |t2|
  {
    if |t2| == 0 {
      assert t1 + t2 == t1;
    } else {
      var t := t1 + t2;
      assert t[..|t| - 1] == t1 + t2[..|t2| - 1];
      assert t[|t| - 1] == t2[|t2| - 1];
      SinceLastConcat(t1, t2[..|t2| - 1], c0);
    }
  }

  /** The count never exceeds the distance to any earlier recolouring, nor
      the start count plus the trace length; without recolouring it equals
      the latter. */
  lemma {:induction false} SinceLastBounds(t: seq<bool>, c0: nat)
    ensures SinceLast(t, c0) <= c0 + |t|
    ensures forall a :: 0 <= a < |t| && t[a] ==> SinceLast(t, c0) <= |t| - 1 - a
    ensures (forall a :: 0 <= a < |t| ==> !t[a]) ==> SinceLast(t, c0) == c0 + |t|
    decreases |t|
  {
    if |t| > 0 {
      var init := t[..|t| - 1];
      SinceLastBounds(init, c0);
      assert forall a :: 0 <= a < |init| ==> init[a] == t[a];
    }
  }

  /** Two throttled traces, the second starting from the count the first
      ends with, form one throttled trace. */
  lemma ThrottledConcat(t1: seq<bool>, t2: seq<bool>, c0: nat)
    requires Throttled(t1, c0)
    requires Throttled(t2, SinceLast(t1, c0))
    ensures Throttled(t1 + t2, c0)
  {
    var t := t1 + t2;
    var c1 := SinceLast(t1, c0);
    SinceLastBounds(t1, c0);
    forall b | 0 <= b < |t| && t[b]
      ensures c0 + b + 1 >= ColorChangeInterval
    {
      if b >= |t1| {
        assert t2[b - |t1|];
      }
    }
    forall a, b | 0 <= a < b < |t| && t[a] && t[b]
      ensures b - a >= ColorChangeInterval
    {
      if b < |t1| {
        assert t1[a] && t1[b];
      } else if a < |t1| {
        assert t1[a] && t2[b - |t1|];
        assert c1 <= |t1| - 1 - a;
      } else {
        assert t2[a - |t1|] && t2[b - |t1|];
      }
    }
  }

  /** The visits of one frame. All of them see the same `flipped`, since
      the remembered sine value changes only at the end of the frame.
      Yields the final counter and the frame's trace. */
  function FrameVisits(flipped: bool, counter: nat, visits: nat): (r: (nat, seq<bool>))
    ensures |r.1| == visits
    ensures r.0 == SinceLast(r.1, counter)
    decreases visits
  {
    if visits == 0 then (counter, [])
    else
      var first := Visit(flipped, counter);
      var rest := FrameVisits(flipped, first.0, visits - 1);
      SinceLastConcat([first.1], rest.1, counter);
      assert SinceLast([first.1], counter) == first.0 by {
        assert [first.1][..0] == [];
      }
      (rest.0, [first.1] + rest.1)
  }

  /** The visits of one frame keep the throttle's promise. */
  lemma {:induction false} FrameVisitsThrottled(flipped: bool, counter: nat, visits: nat)
    ensures Throttled(FrameVisits(flipped, counter, visits).1, counter)
    decreases visits
  {
    if visits > 0 {
      var first := Visit(flipped, counter);
      var rest := FrameVisits(flipped, first.0, visits - 1);
      assert SinceLast([first.1], counter) == first.0 by {
        assert [first.1][..0] == [];
      }
      FrameVisitsThrottled(flipped, first.0, visits - 1);
      ThrottledConcat([first.1], rest.1, counter);
    }
  }

  /** Counting over a prefix of `[head] + tail` that goes past the head. */
  lemma PrefixShift(head: bool, tail: seq<bool>, c0: nat, k: nat)
    requires k <= |tail|
    ensures SinceLast(([head] + tail)[..k + 1], c0) == SinceLast(tail[..k], SinceLast([head], c0))
  {
    assert ([head] + tail)[..k + 1] == [head] + tail[..k];
    SinceLastConcat([head], tail[..k], c0);
  }

  /** Visit `k` of a frame recolours iff the sign flipped and the counter,
      bumped from the visits since the last recolouring, has reached the
      interval. */
  lemma {:induction false} VisitDecision(flipped: bool, counter: nat, visits: nat, k: nat)
    requires k < visits
    ensures FrameVisits(flipped, counter, visits).1[k] <==>
              flipped && SinceLast(FrameVisits(flipped, counter, visits).1[..k], counter) + 1 >= ColorChangeInterval
    decreases k
  {
    var first := Visit(flipped, counter);
    var rest := FrameVisits(flipped, first.0, visits - 1);
    var trace := FrameVisits(flipped, counter, visits).1;
    assert trace == [first.1] + rest.1;
    if k == 0 {
      assert trace[..0] == [];
    } else {
      assert SinceLast([first.1], counter) == first.0 by {
        assert [first.1][..0] == [];
      }
      VisitDecision(flipped, first.0, visits - 1, k - 1);
      PrefixShift(first.1, rest.1, counter, k - 1);
      assert trace[k] == rest.1[k - 1];
    }
  }

  /** A frame whose sine keeps the previous sign recolours nothing, and its
      visits simply add to the counter. */
  lemma {:induction false} NoFlipNoChange(counter: nat, visits: nat)
    ensures forall k :: 0 <= k < visits ==> !FrameVisits(false, counter, visits).1[k]
    ensures FrameVisits(false, counter, visits).0 == counter + visits
    decreases visits
  {
    if visits > 0 {
      NoFlipNoChange(counter + 1, visits - 1);
    }
  }

  /** One frame of the point-size animation, as far as the throttle is
      concerned. */
  function Frame(st: ThrottleState, currentSign: real, visits: nat): (r: (ThrottleState, seq<bool>))
    ensures r.0.previousSign == currentSign
    ensures |r.1| == visits
    ensures r.0.colorChangeCounter == SinceLast(r.1, st.colorChangeCounter)
    ensures Sign(currentSign) == Sign(st.previousSign) ==>
              && (forall k :: 0 <= k < visits ==> !r.1[k])
              && r.0.colorChangeCounter == st.colorChangeCounter + visits
  {
    var flipped := Sign(currentSign) != Sign(st.previousSign);
    var v := FrameVisits(flipped, st.colorChangeCounter, visits);
    NoFlipNoChange(st.colorChangeCounter, visits);
    (ThrottleState(currentSign, v.0), v.1)
  }

  /** Within a frame, visit `k` recolours iff this frame's sine and the
      remembered one differ in sign and the bumped counter has reached the
      interval. */
  lemma FrameDecision(st: ThrottleState, currentSign: real, visits: nat, k: nat)
    requires k < visits
    ensures Frame(st, currentSign, visits).1[k] <==>
              && Sign(currentSign) != Sign(st.previousSign)
              && SinceLast(Frame(st, currentSign, visits).1[..k], st.colorChangeCounter) + 1 >= ColorChangeInterval
  {
    VisitDecision(Sign(currentSign) != Sign(st.previousSign), st.colorChangeCounter, visits, k);
  }

  /** `FrameDecision` for every visit of the frame at once. */
  lemma FrameDecisions(st: ThrottleState, currentSign: real, visits: nat)
    ensures forall k :: 0 <= k < visits ==>
              (Frame(st, currentSign, visits).1[k] <==>
                 && Sign(currentSign) != Sign(st.previousSign)
                 && SinceLast(Frame(st, currentSign, visits).1[..k], st.colorChangeCounter) + 1 >= ColorChangeInterval)
  {
    forall k | 0 <= k < visits
      ensures Frame(st, currentSign, visits).1[k] <==>
                && Sign(currentSign) != Sign(st.previousSign)
                && SinceLast(Frame(st, currentSign, visits).1[..k], st.colorChangeCounter) + 1 >= ColorChangeInterval
    {
      FrameDecision(st, currentSign, visits, k);
    }
  }

  /** Total visits over a sequence of frames. */
  function TotalVisits(frames: seq<FrameInput>): nat {
    if |frames| == 0 then 0 else frames[0].visits + TotalVisits(frames[1..])
  }

  /** A run of frames. Yields the final state and the trace of all visits
      of all frames, in order. */
  function Run(st: ThrottleState, frames: seq<FrameInput>): (r: (ThrottleState, seq<bool>))
    ensures |r.1| == TotalVisits(frames)
    ensures r.0.colorChangeCounter == SinceLast(r.1, st.colorChangeCounter)
    ensures |frames| > 0 ==> r.0.previousSign == frames[|frames| - 1].sine
    ensures |frames| == 0 ==> r.0 == st
    decreases |frames|
  {
    if |frames| == 0 then (st, [])
    else
      var first := Frame(st, frames[0].sine, frames[0].visits);
      var rest := Run(first.0, frames[1..]);
      SinceLastConcat(first.1, rest.1, st.colorChangeCounter);
      (rest.0, first.1 + rest.1)
  }

  /** A whole run of frames keeps the throttle's promise, across frame
      boundaries too. */
  lemma {:induction false} RunThrottled(st: ThrottleState, frames: seq<FrameInput>)
    ensures Throttled(Run(st, frames).1, st.colorChangeCounter)
    decreases |frames|
  {
    if |frames| > 0 {
      var first := Frame(st, frames[0].sine, frames[0].visits);
      var rest := Run(first.0, frames[1..]);
      FrameVisitsThrottled(Sign(frames[0].sine) != Sign(st.previousSign), st.colorChangeCounter, frames[0].visits);
      RunThrottled(first.0, frames[1..]);
      ThrottledConcat(first.1, rest.1, st.colorChangeCounter);
    }
  }

  /** From start-up, no colour changes before the tenth visit, and any two
      changes are at least ten visits apart. */
  lemma RunFromStart(frames: seq<FrameInput>)
    ensures forall b :: 0 <= b < |Run(InitialState, frames).1| && Run(InitialState, frames).1[b] ==> b >= 9
    ensures forall a, b ::
              (0 <= a < b < |Run(InitialState, frames).1| &&
               Run(InitialState, frames).1[a] && Run(InitialState, frames).1[b]) ==> b - a >= 10
  {
    RunThrottled(InitialState, frames);
  }

  /** Every frame visits one points object and its sine has a different
      sign from the frame before. */
  predicate SignFlipsEveryFrame(previousSign: real, frames: seq<FrameInput>) {
    && (forall k :: 0 <= k < |frames| ==> frames[k].visits == 1)
    && (|frames| > 0 ==> Sign(frames[0].sine) != Sign(previousSign))
    && (forall k :: 0 < k < |frames| ==> Sign(frames[k].sine) != Sign(frames[k - 1].sine))
  }

  /** The counter as a flipping visit sees it: a counter already at or past
      the interval behaves like one just below it, since the next visit
      reaches the interval either way. */
  function Clamped(c: nat): (r: nat)
    ensures r < ColorChangeInterval
    ensures c < ColorChangeInterval ==> r == c
    ensures c + 1 >= ColorChangeInterval <==> r + 1 == ColorChangeInterval
  {
    if c < ColorChangeInterval then c else ColorChangeInterval - 1
  }

  /** After one flipping visit the clamped counter plus the remaining
      frames lands on the same phase of the interval. */
  lemma PhaseShift(c0: nat, k: nat)
    requires k > 0
    ensures (Clamped((Clamped(c0) + 1) % ColorChangeInterval) + (k - 1) + 1) % ColorChangeInterval
            == (Clamped(c0) + k + 1) % ColorChangeInterval
  {
  }

  /** A frame that flips the sign and visits one points object recolours
      exactly when its bumped counter reaches the interval, whatever the
      counter it starts from. */
  lemma FlippingFrame(st: ThrottleState, sine: real)
    requires Sign(sine) != Sign(st.previousSign)
    ensures Frame(st, sine, 1).1 == [(Clamped(st.colorChangeCounter) + 1) % ColorChangeInterval == 0]
    ensures Frame(st, sine, 1).0 == ThrottleState(sine, (Clamped(st.colorChangeCounter) + 1) % ColorChangeInterval)
  {
  }

  /** Dropping the first frame keeps the flipping pattern, relative to the
      dropped frame's sine. */
  lemma SignFlipsTail(previousSign: real, frames: seq<FrameInput>)
    requires |frames| > 0
    requires SignFlipsEveryFrame(previousSign, frames)
    ensures SignFlipsEveryFrame(frames[0].sine, frames[1..])
  {
  }

  /** The length of a run in which every frame visits one points object. */
  lemma {:induction false} OneVisitPerFrame(st: ThrottleState, frames: seq<FrameInput>)
    requires SignFlipsEveryFrame(st.previousSign, frames)
    ensures |Run(st, frames).1| == |frames|
    decreases |frames|
  {
    if |frames| > 0 {
      var first := Frame(st, frames[0].sine, frames[0].visits);
      SignFlipsTail(st.previousSign, frames);
      OneVisitPerFrame(first.0, frames[1..]);
    }
  }

  /** When the sign flips on every frame and each frame visits one points
      object, the colour changes on exactly every tenth frame: frame `k`
      recolours iff the starting counter, clamped below the interval, plus
      `k + 1` is a multiple of the interval. A counter that has already
      reached the interval recolours on the first frame. */
  lemma {:induction false} FlipEveryFrame(st: ThrottleState, frames: seq<FrameInput>, k: nat)
    requires SignFlipsEveryFrame(st.previousSign, frames)
    requires k < |frames|
    ensures |Run(st, frames).1| == |frames|
    ensures Run(st, frames).1[k] <==> (Clamped(st.colorChangeCounter) + k + 1) % ColorChangeInterval == 0
    decreases k
  {
    var c := Clamped(st.colorChangeCounter);
    OneVisitPerFrame(st, frames);
    FlippingFrame(st, frames[0].sine);
    var first := Frame(st, frames[0].sine, 1);
    var rest := Run(first.0, frames[1..]);
    assert Run(st, frames).1 == [(c + 1) % ColorChangeInterval == 0] + rest.1;
    if k > 0 {
      SignFlipsTail(st.previousSign, frames);
      FlipEveryFrame(first.0, frames[1..], k - 1);
      PhaseShift(st.colorChangeCounter, k);
      assert Run(st, frames).1[k] == rest.1[k - 1];
    }
  }

  /** From start-up with the sign flipping on every frame, the colour
      changes on frames 10, 20, 30, ... and on no other. */
  lemma FlipEveryFrameFromStart(frames: seq<FrameInput>)
    requires SignFlipsEveryFrame(InitialState.previousSign, frames)
    ensures |Run(InitialState, frames).1| == |frames|
    ensures forall k :: 0 <= k < |frames| ==> (Run(InitialState, frames).1[k] <==> (k + 1) % 10 == 0)
  {
    OneVisitPerFrame(InitialState, frames);
    forall k | 0 <= k < |frames|
      ensures Run(InitialState, frames).1[k] <==> (k + 1) % 10 == 0
    {
      FlipEveryFrame(InitialState, frames, k);
    }
  }
}
